=== FILE: README.md ===
# Self-update of the SuperRename command-line tool, modelled in Dafny

The tool keeps a global config file `~/.<name>/config.json` that maps a tool name
to `{version, lastUpgrade?}`. On every invocation it runs a once-a-day
self-update check, `checkAndAutoUpgrade`:

- the check loads the config and stops if this tool's record is already stamped
  with today's date;
- otherwise it stamps today's date into the config and calls `autoUpgrade`.

`autoUpgrade` goes through these steps in order, and each can end the attempt:

1. check that `git` is installed;
2. sync the working copy of the tool's repository: reset and pull it if it
   exists, clone it if not;
3. check that the working copy's `package.json` exists;
4. load that file through `loadConfig`;
5. compare the versions;
6. run `npm install; npm run build; npm link`.

The model is purely functional:

- The file system is an immutable map from path to text, plus a set of
  directories (`Files`).
- The config store is `loadConfig` / `saveConfig` (`ConfigStore`).
- The controller is a throttle gate and an upgrade sequence (`Controller`). They
  return the final file system, the shell commands run in order, and how the call
  ended: `Exit(code)` for `shelljs.exit`, `Return` to the caller, or `Crash` for an
  uncaught exception.

The outside world is made of parameters:

- `App`: the compiled-in name, version and repository URL, and the home directory.
- `Host`: today's date, `JSON.parse`, `JSON.stringify` and `StringUtil.isEmpty`.
- `World`: whether git is installed, the exit code each command resolves with, and
  the `package.json` the remote currently holds.

Lemmas about single calls and call sequences are in `Throttle` and `Decisions`.

Points where the code behaves differently from what one might expect:

- `JSON.parse("null")` returns `null`. So `loadConfig()` with no path CAN return
  `null`: it does when the global config file holds text that parses to `null`
  (`ConfigStore.LoadConfig`).
- For the same reason, the `rm -rf` self-repair branch of `autoUpgrade` is reached
  exactly when the remote `package.json` parses to `null`. It is not reached for a
  missing or empty descriptor. A missing one is caught one step earlier, and an
  empty one reads as a fresh document whose version is the running one
  (`Decisions.RepairOnlyOnJsonNull`, `Decisions.EmptyDescriptorIsUpToDate`).
- An empty global config file reads as a document stamped today. Every non-forced
  call then stops, on every day (`Throttle.EmptyConfigAlwaysStops`).
- The first run creates the config stamped today, so it never syncs
  (`Throttle.FirstRunOnlyCreatesConfig`).
- The exit codes of reset and pull are not inspected at all
  (`Decisions.ResetAndPullCodesIgnored`).

## Model

| member | source | states |
|---|---|---|
| ConfigStore.DefaultConfig | src/scaffold.ts:169-173 | the synthesised document holds exactly one entry, for this tool, with the compiled-in version and today's date |
| ConfigStore.Stamp | src/scaffold.ts:109-110 | stamping sets this tool's `lastUpgrade` to today and keeps its version, the set of tools and every other entry |
| ConfigStore.SaveConfig | src/scaffold.ts:201-212 | an explicit-path save throws exactly when the parent is not a directory or the target is one; the target (the global config file when no path is given) then holds the stringified document, and no other file changes; with no path the global directory exists afterwards |
| ConfigStore.LoadConfig | src/scaffold.ts:168-198 | with an explicit path it never changes the file system, and it is null exactly when the file is missing or its text parses to null; with no path, and with `~/.<name>` a directory or missing with the home directory present, a missing config file is written with the fresh document, which is returned, and the global directory is created if needed; with `~/.<name>` a directory, an existing config file is read without any change to the file system; null then only comes from text parsing to null; empty text gives the fresh document and writes nothing; non-empty text that parses to an object gives that object, malformed text throws, and a path that is a directory throws |
| ConfigStore.SaveLoadRoundTrip | src/scaffold.ts:189-211 | saving a document and loading it back from the same place gives that document, when the JSON codec round-trips |
| ConfigStore.ReloadIsStable | src/scaffold.ts:96-109 | the second `loadConfig()` of the throttle sees the same document and changes nothing |
| Controller.Sync | src/scaffold.ts:124-135 | an existing working copy is reset then pulled and always counts as synced, and a working-copy path that is a regular file is left alone; otherwise one clone is run, creating its directory, and the sync succeeds exactly when its code is 0; a successful sync of a working-copy directory or a fresh clone leaves the remote's descriptor there (or none, when the remote has none) and keeps every other file; a failed sync leaves the file system unchanged |
| Controller.Upgrade | src/scaffold.ts:117-165 | exit 1 exactly when git is missing, and then no command runs and nothing changes; the only exit codes are 0 and 1; exit 0 happens exactly when the rebuild ran; a new version is announced only if it differs from the running one; the self-repair branch leaves no working copy |
| Controller.AutoUpgrade | src/scaffold.ts:125-134 | as written, with git present and no working copy, the first command is a clone into `~/.<name>/repository` |
| Controller.AutoUpgradeIntended | src/scaffold.ts:125-138 | the corrected attempt clones a missing working copy into `~/.<name>/<name>`, the directory checked afterwards |
| Controller.CheckAndAutoUpgrade | src/scaffold.ts:94-115 | a call the throttle stops ends there; a call it lets through is the upgrade attempt started from the stamped file system; a forced call is the upgrade attempt alone; the only exit codes are 0 and 1, and exit 0 happens exactly when a rebuild ran |
| Controller.ThrottleGate | src/scaffold.ts:94-112 | a forced call passes straight through; a stopped call runs no command and ends silently or crashes; a call let through has written the global config file and touched no other file |
| Throttle.UpgradeKeepsConfig | src/scaffold.ts:125-157 | an upgrade attempt leaves the global config file and the global directory as they were |
| Throttle.ForcedRunSkipsThrottle | src/scaffold.ts:94-115 | a forced call is exactly the upgrade attempt and leaves the global config file as it was |
| Throttle.StampedTodayStops | src/scaffold.ts:100-105 | a record stamped today stops a non-forced call with nothing run and nothing written |
| Throttle.EmptyConfigAlwaysStops | src/scaffold.ts:189-197 | an empty config file stops every non-forced call with nothing run and nothing written |
| Throttle.FirstRunOnlyCreatesConfig | src/scaffold.ts:175-188 | without a config file a non-forced call only creates the directory and the fresh document, then stops |
| Throttle.StampPersistedBeforeSync | src/scaffold.ts:106-114 | a record not stamped today lets the call through, and the config file already holds the stamped document when the upgrade attempt starts |
| Throttle.GateCrashes | src/scaffold.ts:96-103 | with a readable global config, the throttle crashes exactly when the text is non-empty and either malformed or without this tool's record; a stopped call then writes nothing |
| Throttle.QuietRunIsNoOp | src/scaffold.ts:95-105 | a call the throttle stops without writing changes nothing, runs nothing and never calls `shelljs.exit`; it ends silently or with an uncaught exception |
| Throttle.RunLeavesQuiet | src/scaffold.ts:94-114 | whatever a non-forced call does, the next one on the same day is stopped without writing |
| Throttle.QuietStaysQuiet | src/scaffold.ts:94-105 | from a stopped state, any number of further calls run nothing and change nothing |
| Throttle.SameDayRerunsDoNothing | src/scaffold.ts:94-114 | after one non-forced call, every further non-forced call that day runs no command, leaves the file system as it was, and ends silently or with an uncaught exception, never reaching `autoUpgrade`'s exits |
| Decisions.CloneFailureReturns | src/scaffold.ts:130-134 | a failed clone returns with the error message, runs nothing else and changes nothing |
| Decisions.ResetAndPullCodesIgnored | src/scaffold.ts:126-129 | with an existing working copy the exit codes of reset and pull do not affect the run |
| Decisions.MissingDescriptorReturns | src/scaffold.ts:138-141 | a synced copy without `package.json` returns with the error message, deletes nothing and rebuilds nothing |
| Decisions.RepoPathIsFileReturns | src/scaffold.ts:126-141 | a working-copy path that is a regular file goes through reset and pull, finds no descriptor, and returns with the error message, changing nothing |
| Decisions.UpgradeCrashes | src/scaffold.ts:142-148 | the attempt crashes exactly when the synced descriptor exists but is a directory, holds malformed text, or loads without this tool's record; it then rebuilds nothing and leaves the synced file system |
| Decisions.RepairOnlyOnJsonNull | src/scaffold.ts:142-146 | the self-repair branch is taken exactly when the synced descriptor is non-empty text that parses to null |
| Decisions.EmptyDescriptorIsUpToDate | src/scaffold.ts:142-153 | an empty synced descriptor gives "up to date" and no rebuild |
| Decisions.VersionDecidesRebuild | src/scaffold.ts:147-164 | a rebuild runs exactly when the remote version differs; it runs once, and the process then exits 0 whatever its code; the new version is announced exactly when the rebuild succeeded |
| Decisions.FreshCloneMissesDescriptor | src/scaffold.ts:125-141 | as written, a successful fresh clone of a tool not named "repository" ends with the error message and no rebuild |
| Decisions.FreshCloneReachesVersionCheck | src/scaffold.ts:130-153 | cloning into the directory that is checked afterwards gets a fresh install whose remote has a descriptor past the descriptor check, and on to the version comparison when that descriptor loads as a document naming this tool |

## Left out

- The Commander command wiring, the help texts, the empty `renameProj` and `main` (src/scaffold.ts:54-76, 219-267): declarative CLI wiring with no logic of its own.
- The spinner, `inquirer`, the unused `worker_threads` import, and the informational `console.log` lines (daily check, directory created): these are user-interface concerns.
- The shell and what git and npm actually do. Each command is reduced to the exit code it resolves with. A sync's only effect on the file system is the working copy's `package.json`: the remote's text after a pull or clone. A failed pull that leaves an older descriptor behind is not distinguished. The rebuild's effect on the file system is not modelled.
- The stdout and stderr that `timeConsumingCmd` captures: the controller never reads them.
- The ambient working directory (`shelljs.cd`). The clone target is taken to be `~/.<name>/repository`, as it is whenever the global directory exists. For a forced call made before the global directory exists, the clone actually lands in the process's current directory.
- The JSON text format: `JSON.parse` and `JSON.stringify` are opaque parameters. A record whose fields are not strings is not modelled, for example a numeric version that `==` compares loosely with a string.
- `path.join` normalisation and the `~` fallback for the home directory: a path is a list of segments.
- `DateUtil` and `StringUtil`: the date is one string per invocation, although the source reads the clock several times and could cross midnight in between. Emptiness is an opaque predicate.
- Async and Promise mechanics: the commands are awaited one after another, so they are sequential steps.
- When the working-copy path is a regular file, `shelljs.cd` into it fails, and the reset and pull actually run in `~/.<name>`. The trace still records them against the working-copy path. They change nothing in the model.
- `saveConfig` with an explicit path is modelled, but the source never calls it that way.
- ConfigStore.LoadConfig: the default-path clauses about `null` and empty text assume `~/.<name>` exists. The abstract file system also admits a config file whose directory is missing, and for that state the contract promises less.
- Throttle.StampPersistedBeforeSync: assumes `config.json` is not also a directory. The abstract file system does not rule that state out on its own.
- Throttle.RunLeavesQuiet: assumes the tool is not named `config.json`. With that name the working copy would sit at the config file's path and be deleted by the self-repair. It also assumes the JSON codec round-trips.

## Findings

| source | as written | input that shows it | evidently intended | confidence | as-written member | corrected member |
|---|---|---|---|---|---|---|
| src/scaffold.ts:131 | `git clone <url> repository` run in `~/.<name>` clones into `~/.<name>/repository`, while lines 126 and 138 look for `~/.<name>/<name>` and `~/.<name>/<name>/package.json` | a fresh install with git present, a tool not named "repository" and a clone that exits 0: the descriptor check fails, the error message is printed, and no rebuild ever happens | clone into `~/.<name>/<name>` (GLOBAL_REPOSITORY_DIR) | high, not executed | Controller.AutoUpgrade, exhibited by Decisions.FreshCloneMissesDescriptor | Controller.AutoUpgradeIntended, proved by Decisions.FreshCloneReachesVersionCheck |

=== FILE: base.dfy ===
/** Small shared vocabulary: an optional value, used for JavaScript's
    `undefined` (an absent field or argument) throughout the model. */
module Base {

  datatype Option<+T> = None | Some(value: T)

}

=== FILE: config.dfy ===
/** The config store: the record kept per tool, the well-known locations under
    the user's home directory, and `loadConfig` / `saveConfig`.
    The clock, `JSON.parse`, `JSON.stringify` and `StringUtil.isEmpty` are
    outside the model and arrive as the fields of a `Host`. */
module ConfigStore {

  import opened Base
  import opened Files

  /** The compiled-in facts from the tool's own package file, plus the home
      directory the process was started with. */
  datatype App = App(home: Path, name: string, version: string, url: string)

  /** One entry of the config document; `lastUpgrade` is a "yyyy-M-d" date. */
  datatype ToolRecord = ToolRecord(version: string, lastUpgrade: Option<string>)

  /** The config document: tool name to record. */
  type Config = map<string, ToolRecord>

  /** What `JSON.parse` does with a text: throw, yield `null`, or yield a
      value whose lookups behave like the given map (a non-object value, whose
      lookups give `undefined`, is an `Object` without the tool's entry). */
  datatype Parsed = Malformed | NullValue | Object(config: Config)

  /** The world the store depends on: today's date string, the JSON codec and
      the emptiness test on file text. */
  datatype Host = Host(
    today: string,
    parse: string -> Parsed,
    stringify: Config -> string,
    isEmpty: string -> bool)

  /** Result of `loadConfig`: a document, `null`, or an exception thrown out of it. */
  datatype LoadResult = Null | Doc(config: Config) | Thrown

  datatype Loaded = Loaded(fs: FileSystem, result: LoadResult)

  // ---- Layout

  /** `~/.<name>` */
  function GlobalDir(app: App): Path { app.home + ["." + app.name] }

  /** `~/.<name>/config.json` */
  function ConfigPath(app: App): Path { GlobalDir(app) + ["config.json"] }

  /** `~/.<name>/<name>`, where the repository working copy is looked for. */
  function RepoDir(app: App): Path { GlobalDir(app) + [app.name] }

  /** `~/.<name>/<name>/package.json` */
  function RepoPackage(app: App): Path { RepoDir(app) + ["package.json"] }

  /** The document `loadConfig` synthesises: this tool only, stamped today. */
  function DefaultConfig(app: App, today: string): (c: Config)
    ensures c.Keys == {app.name}
    ensures c[app.name].version == app.version && c[app.name].lastUpgrade == Some(today)
  {
    map[app.name := ToolRecord(app.version, Some(today))]
  }

  /** The throttle stamp: the tool's `lastUpgrade` becomes `today`. */
  function Stamp(c: Config, name: string, today: string): (s: Config)
    requires name in c
    ensures s.Keys == c.Keys
    ensures s[name].version == c[name].version && s[name].lastUpgrade == Some(today)
    ensures forall n :: n in c && n != name ==> s[n] == c[n]
  {
    c[name := c[name].(lastUpgrade := Some(today))]
  }

  /** True when `JSON.stringify` followed by `JSON.parse` gives back the
      document and never produces empty text. */
  ghost predicate RoundTrips(host: Host) {
    forall c: Config :: !host.isEmpty(host.stringify(c)) && host.parse(host.stringify(c)) == Object(c)
  }

  // ---- saveConfig

  /** `saveConfig(config, path?)`: with no path, writes the global config
      file after creating the global directory if needed. None is an
      exception out of `mkdirSync` or `writeFileSync`. */
  function SaveConfig(app: App, host: Host, fs: FileSystem, c: Config, path: Option<Path>): (r: Option<FileSystem>)
    ensures path.Some? ==> (r.Some? <==> ParentIsDir(fs, path.value) && path.value !in fs.dirs)
    ensures r.Some? ==> var target := if path.None? then ConfigPath(app) else path.value;
      target in r.value.files && r.value.files[target] == host.stringify(c)
      && (forall q :: q != target ==> (q in r.value.files <==> q in fs.files))
      && (forall q :: q != target && q in fs.files ==> r.value.files[q] == fs.files[q])
    ensures path.None? && r.Some? ==> GlobalDir(app) in r.value.dirs
    ensures path.None? && GlobalDir(app) in fs.dirs && ConfigPath(app) !in fs.dirs ==> r == Some(fs.(files := fs.files[ConfigPath(app) := host.stringify(c)]))
  {
    if path.Some? then WriteFile(fs, path.value, host.stringify(c))
    else
      assert GlobalDir(app)[..|GlobalDir(app)| - 1] == app.home;
      assert ConfigPath(app)[..|ConfigPath(app)| - 1] == GlobalDir(app);
      match EnsureDir(fs, GlobalDir(app))
      case None => None
      case Some(fs1) => WriteFile(fs1, ConfigPath(app), host.stringify(c))
  }

  // ---- loadConfig

  /** Reads an existing path: a directory throws, empty text gives the fresh
      document, anything else goes through `JSON.parse`. */
  function ReadConfig(host: Host, fs: FileSystem, p: Path, synthesized: Config): (l: Loaded)
    ensures l.fs == fs
  {
    match ReadFile(fs, p)
    case None => Loaded(fs, Thrown)
    case Some(text) =>
      if host.isEmpty(text) then Loaded(fs, Doc(synthesized))
      else match host.parse(text)
        case Malformed => Loaded(fs, Thrown)
        case NullValue => Loaded(fs, Null)
        case Object(c) => Loaded(fs, Doc(c))
  }

  /** True when `p` holds non-empty text that parses to JSON `null`. */
  predicate HoldsNull(host: Host, fs: FileSystem, p: Path) {
    p in fs.files && !host.isEmpty(fs.files[p]) && host.parse(fs.files[p]) == NullValue
  }

  /** `loadConfig(path?)`. With an explicit path it never writes, and a missing
      file gives `null`. With no path it creates the global directory, and a
      missing global config file is created holding the synthesized document, which is
      returned; `null` then only comes from a file whose text parses to `null`. */
  function LoadConfig(app: App, host: Host, fs: FileSystem, path: Option<Path>): (l: Loaded)
    // explicit path
    ensures path.Some? ==> l.fs == fs
    ensures path.Some? ==> (l.result == Null <==> !Exists(fs, path.value) || HoldsNull(host, fs, path.value))
    // default path
    ensures path.None? && l.result != Thrown ==> Exists(l.fs, GlobalDir(app))
    ensures path.None? && l.result == Null ==> HoldsNull(host, fs, ConfigPath(app))
    ensures path.None? && Exists(fs, GlobalDir(app)) && HoldsNull(host, fs, ConfigPath(app)) ==> l.result == Null
    ensures path.None? && !Exists(fs, ConfigPath(app)) && l.result != Thrown ==>
      l.result == Doc(DefaultConfig(app, host.today))
      && l.fs.files == fs.files[ConfigPath(app) := host.stringify(DefaultConfig(app, host.today))]
    ensures path.None? && Exists(fs, ConfigPath(app)) ==> l.fs.files == fs.files
    ensures path.None? && GlobalDir(app) in fs.dirs && Exists(fs, ConfigPath(app)) ==> l.fs == fs
    // with the home directory present, a missing global config is created and returned
    ensures (path.None? && !Exists(fs, ConfigPath(app))
             && (GlobalDir(app) in fs.dirs || (!Exists(fs, GlobalDir(app)) && app.home in fs.dirs))) ==>
        && l.result == Doc(DefaultConfig(app, host.today))
        && l.fs.dirs == fs.dirs + {GlobalDir(app)}
        && l.fs.files == fs.files[ConfigPath(app) := host.stringify(DefaultConfig(app, host.today))]
    // an existing file with empty text
    ensures var p := if path.Some? then path.value else ConfigPath(app);
      (path.Some? || Exists(fs, GlobalDir(app))) && p in fs.files && host.isEmpty(fs.files[p]) ==>
        l.result == Doc(DefaultConfig(app, host.today)) && l.fs.files == fs.files
    // an existing file with non-empty text is whatever `JSON.parse` makes of it
    ensures var p := if path.Some? then path.value else ConfigPath(app);
      (path.Some? || Exists(fs, GlobalDir(app))) && p in fs.files && !host.isEmpty(fs.files[p]) ==>
        && (l.result == Thrown <==> host.parse(fs.files[p]) == Malformed)
        && (host.parse(fs.files[p]).Object? ==> l.result == Doc(host.parse(fs.files[p]).config))
    // an existing path that is not a regular file cannot be read
    ensures var p := if path.Some? then path.value else ConfigPath(app);
      (path.Some? || Exists(fs, GlobalDir(app))) && p in fs.dirs && p !in fs.files ==> l.result == Thrown
  {
    var synthesized := DefaultConfig(app, host.today);
    if path.Some? then
      if !Exists(fs, path.value) then Loaded(fs, Null)
      else ReadConfig(host, fs, path.value, synthesized)
    else
      assert GlobalDir(app)[..|GlobalDir(app)| - 1] == app.home;
      assert ConfigPath(app)[..|ConfigPath(app)| - 1] == GlobalDir(app);
      match EnsureDir(fs, GlobalDir(app))
      case None => Loaded(fs, Thrown)
      case Some(fs1) =>
        if !Exists(fs1, ConfigPath(app)) then
          match SaveConfig(app, host, fs1, synthesized, None)
          case None => Loaded(fs1, Thrown)
          case Some(fs2) => Loaded(fs2, Doc(synthesized))
        else ReadConfig(host, fs1, ConfigPath(app), synthesized)
  }

  /** Saving a document and loading it back from the same place gives the
      document again, provided the JSON codec round-trips. */
  lemma SaveLoadRoundTrip(app: App, host: Host, fs: FileSystem, c: Config, path: Option<Path>)
    requires RoundTrips(host)
    requires SaveConfig(app, host, fs, c, path).Some?
    ensures LoadConfig(app, host, SaveConfig(app, host, fs, c, path).value, path).result == Doc(c)
  {
    var saved := SaveConfig(app, host, fs, c, path).value;
    var target := if path.None? then ConfigPath(app) else path.value;
    assert saved.files[target] == host.stringify(c);
    assert !host.isEmpty(host.stringify(c)) && host.parse(host.stringify(c)) == Object(c);
  }

  /** Loading the global config a second time right after the first changes
      nothing and gives the same answer: either the file already existed, or
      the first load wrote the fresh document and the codec reads it back. */
  lemma {:induction false} ReloadIsStable(app: App, host: Host, fs: FileSystem)
    requires Exists(fs, ConfigPath(app)) || RoundTrips(host)
    ensures var first := LoadConfig(app, host, fs, None);
      LoadConfig(app, host, first.fs, None) == first
  {
    var first := LoadConfig(app, host, fs, None);
    if !Exists(fs, ConfigPath(app)) && first.result != Thrown {
      var text := host.stringify(DefaultConfig(app, host.today));
      assert first.fs.files[ConfigPath(app)] == text;
      assert !host.isEmpty(text) && host.parse(text) == Object(DefaultConfig(app, host.today));
    }
  }

}

=== FILE: decisions.dfy ===
/** Properties of the decision sequence of `autoUpgrade`: which branch ends
    how, which commands each one runs, and what it does to the file system.
    The lemmas take the clone target as a parameter where the property holds
    for both; the as-written and corrected lemmas about the clone target are at the end. */
module Decisions {

  import opened Base
  import opened Files
  import opened ConfigStore
  import opened Controller

  /** A failed clone is not fatal: the attempt prints the error message and
      returns to the caller, with the clone the only command run and the file
      system untouched. */
  lemma CloneFailureReturns(app: App, host: Host, world: World, fs: FileSystem, cloneInto: Path)
    requires world.gitPresent && !Exists(fs, RepoDir(app))
    requires world.exitCode(Clone(app.url, cloneInto)) != 0
    ensures Upgrade(app, host, world, fs, cloneInto) == Run(fs, [Clone(app.url, cloneInto)], Return(UpdateFailed))
  {
  }

  /** With an existing working copy, the exit codes of the reset and the pull
      have no influence: two worlds that differ only in those codes give the
      same run. */
  lemma ResetAndPullCodesIgnored(app: App, host: Host, w1: World, w2: World, fs: FileSystem, cloneInto: Path)
    requires Exists(fs, RepoDir(app))
    requires w1.gitPresent == w2.gitPresent && w1.remotePackage == w2.remotePackage
    requires w1.exitCode(Rebuild(RepoDir(app))) == w2.exitCode(Rebuild(RepoDir(app)))
    ensures Upgrade(app, host, w1, fs, cloneInto) == Upgrade(app, host, w2, fs, cloneInto)
  {
  }

  /** A missing descriptor after a successful sync returns with the error
      message: nothing is deleted and nothing is rebuilt. */
  lemma MissingDescriptorReturns(app: App, host: Host, world: World, fs: FileSystem, cloneInto: Path)
    requires world.gitPresent
    requires var s := Sync(app, world, fs, cloneInto); s.ok && !Exists(s.fs, RepoPackage(app))
    ensures var s := Sync(app, world, fs, cloneInto);
      Upgrade(app, host, world, fs, cloneInto) == Run(s.fs, s.trace, Return(UpdateFailed))
  {
  }

  /** A working-copy path that is a regular file still takes the reset-and-pull
      branch, but leaves no descriptor to find: the attempt returns with the
      error message and changes nothing. */
  lemma RepoPathIsFileReturns(app: App, host: Host, world: World, fs: FileSystem, cloneInto: Path)
    requires world.gitPresent && RepoDir(app) in fs.files && RepoDir(app) !in fs.dirs
    requires !Exists(fs, RepoPackage(app))
    ensures Upgrade(app, host, world, fs, cloneInto)
      == Run(fs, [Reset(RepoDir(app)), Pull(RepoDir(app))], Return(UpdateFailed))
  {
  }

  /** The attempt ends in an uncaught exception exactly when the synced
      descriptor exists but cannot be read (a directory, or malformed text)
      or loads as a document without this tool's record; it then rebuilds
      nothing and leaves the synced file system. */
  lemma UpgradeCrashes(app: App, host: Host, world: World, fs: FileSystem, cloneInto: Path)
    ensures var r := Upgrade(app, host, world, fs, cloneInto);
      var s := Sync(app, world, fs, cloneInto);
      var p := RepoPackage(app);
      && (r.outcome == Crash <==>
            world.gitPresent && s.ok && Exists(s.fs, p)
            && (p !in s.fs.files
                || (!host.isEmpty(s.fs.files[p])
                    && (host.parse(s.fs.files[p]) == Malformed
                        || (host.parse(s.fs.files[p]).Object? && app.name !in host.parse(s.fs.files[p]).config)))))
      && (r.outcome == Crash ==> r.fs == s.fs && r.trace == s.trace && Rebuild(RepoDir(app)) !in r.trace)
  {
    var s := Sync(app, world, fs, cloneInto);
    assert Rebuild(RepoDir(app)) !in s.trace;
  }

  /** The self-repair branch (`rm -rf` of the working copy) is taken exactly
      when the synced descriptor is non-empty text that `JSON.parse` turns
      into `null`. A missing descriptor is caught one step earlier and an
      empty one reads as the fresh document, so neither reaches it. */
  lemma RepairOnlyOnJsonNull(app: App, host: Host, world: World, fs: FileSystem, cloneInto: Path)
    ensures var r := Upgrade(app, host, world, fs, cloneInto);
      var s := Sync(app, world, fs, cloneInto);
      r.outcome == Return(Silent) <==>
        world.gitPresent && s.ok && HoldsNull(host, s.fs, RepoPackage(app))
  {
  }

  /** An empty synced descriptor reads as the fresh document, whose version
      is the running one: the attempt reports "up to date" and rebuilds nothing. */
  lemma EmptyDescriptorIsUpToDate(app: App, host: Host, world: World, fs: FileSystem, cloneInto: Path)
    requires world.gitPresent
    requires var s := Sync(app, world, fs, cloneInto);
      s.ok && RepoPackage(app) in s.fs.files && host.isEmpty(s.fs.files[RepoPackage(app)])
    ensures var r := Upgrade(app, host, world, fs, cloneInto);
      r.outcome == Return(UpToDate) && Rebuild(RepoDir(app)) !in r.trace
  {
  }

  /** Once the remote document has loaded and names this tool, a rebuild is
      run exactly when its version differs from the running one; it is run
      once, in the working copy, and the process then exits with 0 whatever
      the rebuild's code, announcing the new version only on success. */
  lemma VersionDecidesRebuild(app: App, host: Host, world: World, fs: FileSystem, cloneInto: Path, c: Config)
    requires world.gitPresent
    requires var s := Sync(app, world, fs, cloneInto);
      s.ok && Exists(s.fs, RepoPackage(app))
      && LoadConfig(app, host, s.fs, Some(RepoPackage(app))).result == Doc(c)
    requires app.name in c
    ensures var r := Upgrade(app, host, world, fs, cloneInto);
      var s := Sync(app, world, fs, cloneInto);
      && r.fs == s.fs
      && (Rebuild(RepoDir(app)) in r.trace <==> c[app.name].version != app.version)
      && (r.outcome == Return(UpToDate) <==> c[app.name].version == app.version)
      && (r.outcome.Exit? ==> r.outcome.code == 0 && r.trace == s.trace + [Rebuild(RepoDir(app))])
      && (r.outcome.Exit? ==>
            (r.outcome.notice == Upgraded(c[app.name].version) <==> world.exitCode(Rebuild(RepoDir(app))) == 0))
  {
    var s := Sync(app, world, fs, cloneInto);
    assert Rebuild(RepoDir(app)) !in s.trace;
  }

  /** As written, a fresh install never gets past the sync: the clone lands in
      `~/.<name>/repository` while the descriptor is looked for under
      `~/.<name>/<name>`, so unless the tool is called "repository" a
      successful clone ends with the error message and no rebuild. */
  lemma FreshCloneMissesDescriptor(app: App, host: Host, world: World, fs: FileSystem)
    requires app.name != "repository"
    requires world.gitPresent && !Exists(fs, RepoDir(app)) && !Exists(fs, RepoPackage(app))
    requires world.exitCode(Clone(app.url, CloneDir(app))) == 0
    ensures var r := AutoUpgrade(app, host, world, fs);
      && r.trace == [Clone(app.url, CloneDir(app))]
      && r.outcome == Return(UpdateFailed)
      && (world.remotePackage.Some? ==> CloneDir(app) + ["package.json"] in r.fs.files)
  {
    assert RepoPackage(app)[|GlobalDir(app)|] == app.name;
    assert (CloneDir(app) + ["package.json"])[|GlobalDir(app)|] == "repository";
  }

  /** With the clone going where the descriptor is looked for, a successful
      fresh clone of a remote that has a descriptor always gets past the sync
      to the remote document; if that document loads and names this tool, the
      attempt ends at the version comparison. */
  lemma FreshCloneReachesVersionCheck(app: App, host: Host, world: World, fs: FileSystem)
    requires world.gitPresent && !Exists(fs, RepoDir(app))
    requires world.exitCode(Clone(app.url, RepoDir(app))) == 0
    requires world.remotePackage.Some?
    ensures var r := AutoUpgradeIntended(app, host, world, fs);
      && r.trace[0] == Clone(app.url, RepoDir(app))
      && r.outcome != Return(UpdateFailed)
      && var remote := LoadConfig(app, host, Sync(app, world, fs, RepoDir(app)).fs, Some(RepoPackage(app))).result;
         (remote.Doc? && app.name in remote.config ==> r.outcome == Return(UpToDate) || r.outcome.Exit?)
  {
  }

}

=== FILE: files.dfy ===
/** An abstract file system: a map from path to file content plus the set of
    directories. `fs.existsSync` holds for both files and directories; the
    writes model `fs.mkdirSync` (not recursive) and `fs.writeFileSync`, each
    of which throws when its parent is not a directory. */
module Files {

  import opened Base

  /** A path as the list of its segments: `path.join(a, b)` is `a + [b]`. */
  type Path = seq<string>

  datatype FileSystem = FileSystem(files: map<Path, string>, dirs: set<Path>)

  /** `fs.existsSync`: true for a regular file and for a directory alike. */
  predicate Exists(fs: FileSystem, p: Path) {
    p in fs.files || p in fs.dirs
  }

  /** True when `p` is `dir` itself or lies somewhere below it. */
  predicate Within(dir: Path, p: Path) {
    dir <= p
  }

  /** True when the directory that would hold `p` exists. */
  predicate ParentIsDir(fs: FileSystem, p: Path) {
    |p| > 0 && p[..|p| - 1] in fs.dirs
  }

  /** `if (!fs.existsSync(d)) fs.mkdirSync(d)`; None is the exception
      `mkdirSync` throws when the parent directory is missing. */
  function EnsureDir(fs: FileSystem, d: Path): (r: Option<FileSystem>)
    ensures r.Some? ==> Exists(r.value, d) && r.value.files == fs.files
    ensures r.Some? ==> fs.dirs <= r.value.dirs <= fs.dirs + {d}
    ensures r.None? <==> !Exists(fs, d) && !ParentIsDir(fs, d)
  {
    if Exists(fs, d) then Some(fs)
    else if ParentIsDir(fs, d) then Some(FileSystem(fs.files, fs.dirs + {d}))
    else None
  }

  /** `fs.writeFileSync(p, content)`: creates or overwrites a regular file;
      None is the exception thrown when `p` is a directory or its parent is
      not one. */
  function WriteFile(fs: FileSystem, p: Path, content: string): (r: Option<FileSystem>)
    ensures r.Some? <==> ParentIsDir(fs, p) && p !in fs.dirs
    ensures r.Some? ==> r.value.dirs == fs.dirs
    ensures r.Some? ==> p in r.value.files && r.value.files[p] == content
    ensures r.Some? ==> forall q :: q != p ==> (q in r.value.files <==> q in fs.files)
    ensures r.Some? ==> forall q :: q != p && q in fs.files ==> r.value.files[q] == fs.files[q]
  {
    if ParentIsDir(fs, p) && p !in fs.dirs then Some(FileSystem(fs.files[p := content], fs.dirs))
    else None
  }

  /** `fs.readFileSync(p).toString()`: None when `p` is not a regular file
      (reading a directory throws). */
  function ReadFile(fs: FileSystem, p: Path): (r: Option<string>)
    ensures r.Some? <==> p in fs.files
    ensures r.Some? ==> r.value == fs.files[p]
  {
    if p in fs.files then Some(fs.files[p]) else None
  }

  /** `shelljs.rm('-rf', dir)`: every file and directory at or below `dir`
      disappears, everything else is kept. */
  function RemoveTree(fs: FileSystem, dir: Path): (r: FileSystem)
    ensures forall p :: p in r.files <==> p in fs.files && !Within(dir, p)
    ensures forall p :: p in r.files ==> r.files[p] == fs.files[p]
    ensures forall p :: p in r.dirs <==> p in fs.dirs && !Within(dir, p)
    ensures !Exists(r, dir)
  {
    FileSystem(map p | p in fs.files && !Within(dir, p) :: fs.files[p],
               set p | p in fs.dirs && !Within(dir, p))
  }

}

=== FILE: throttle.dfy ===
/** Properties of the daily throttle in `checkAndAutoUpgrade`: when it stops a
    call, what it writes before letting one through, and why every later
    non-forced call on the same day does nothing. */
module Throttle {

  import opened Base
  import opened Files
  import opened ConfigStore
  import opened Controller

  /** True when a non-forced call from `fs` is stopped by the throttle without
      touching the file system. */
  predicate Quiet(app: App, host: Host, fs: FileSystem) {
    var g := ThrottleGate(app, host, fs, false);
    g.Stop? && g.run.fs == fs
  }

  /** An upgrade attempt never touches the global config file and keeps the
      global directory, whichever of the two clone targets it uses. */
  lemma UpgradeKeepsConfig(app: App, host: Host, world: World, fs: FileSystem, cloneInto: Path)
    requires app.name != "config.json"
    requires cloneInto == CloneDir(app) || cloneInto == RepoDir(app)
    ensures var r := Upgrade(app, host, world, fs, cloneInto);
      && (ConfigPath(app) in r.fs.files <==> ConfigPath(app) in fs.files)
      && (ConfigPath(app) in fs.files ==> r.fs.files[ConfigPath(app)] == fs.files[ConfigPath(app)])
      && (ConfigPath(app) in r.fs.dirs <==> ConfigPath(app) in fs.dirs)
      && (GlobalDir(app) in fs.dirs ==> GlobalDir(app) in r.fs.dirs)
  {
    var g := GlobalDir(app);
    assert ConfigPath(app)[|g|] == "config.json" && cloneInto[|g|] != "config.json";
    assert |ConfigPath(app)| != |cloneInto + ["package.json"]|;
    assert |ConfigPath(app)| != |RepoPackage(app)|;
    assert !Within(RepoDir(app), ConfigPath(app));
    assert !Within(RepoDir(app), g);
  }

  /** A forced call goes straight to the upgrade attempt and neither reads
      nor writes the global config file. */
  lemma ForcedRunSkipsThrottle(app: App, host: Host, world: World, fs: FileSystem)
    requires app.name != "config.json"
    ensures var r := CheckAndAutoUpgrade(app, host, world, fs, true);
      && r == AutoUpgrade(app, host, world, fs)
      && (ConfigPath(app) in r.fs.files <==> ConfigPath(app) in fs.files)
      && (ConfigPath(app) in fs.files ==> r.fs.files[ConfigPath(app)] == fs.files[ConfigPath(app)])
  {
    UpgradeKeepsConfig(app, host, world, fs, CloneDir(app));
  }

  /** A stored record stamped with today's date stops a non-forced call:
      nothing is run and nothing is written. */
  lemma StampedTodayStops(app: App, host: Host, world: World, fs: FileSystem, c: Config)
    requires GlobalDir(app) in fs.dirs && ConfigPath(app) in fs.files
    requires !host.isEmpty(fs.files[ConfigPath(app)]) && host.parse(fs.files[ConfigPath(app)]) == Object(c)
    requires app.name in c && c[app.name].lastUpgrade == Some(host.today)
    ensures CheckAndAutoUpgrade(app, host, world, fs, false) == Run(fs, [], Return(Silent))
  {
  }

  /** An empty global config file reads as the fresh document, which is always
      stamped today: every non-forced call stops, on every day. */
  lemma EmptyConfigAlwaysStops(app: App, host: Host, world: World, fs: FileSystem)
    requires GlobalDir(app) in fs.dirs && ConfigPath(app) in fs.files
    requires host.isEmpty(fs.files[ConfigPath(app)])
    ensures CheckAndAutoUpgrade(app, host, world, fs, false) == Run(fs, [], Return(Silent))
  {
  }

  /** On a first run, when there is no global config file yet, the call creates
      the directory and the fresh document and stops there: no sync that day. */
  lemma FirstRunOnlyCreatesConfig(app: App, host: Host, world: World, fs: FileSystem)
    requires !Exists(fs, ConfigPath(app))
    requires GlobalDir(app) in fs.dirs || (!Exists(fs, GlobalDir(app)) && app.home in fs.dirs)
    ensures var r := CheckAndAutoUpgrade(app, host, world, fs, false);
      && r.outcome == Return(Silent) && r.trace == []
      && r.fs.dirs == fs.dirs + {GlobalDir(app)}
      && r.fs.files == fs.files[ConfigPath(app) := host.stringify(DefaultConfig(app, host.today))]
  {
    assert GlobalDir(app)[..|GlobalDir(app)| - 1] == app.home;
    assert ConfigPath(app)[..|ConfigPath(app)| - 1] == GlobalDir(app);
  }

  /** A stored record not stamped today lets a non-forced call through, and
      before anything is synced the config file already holds the same
      document with this tool's `lastUpgrade` set to today. */
  lemma StampPersistedBeforeSync(app: App, host: Host, world: World, fs: FileSystem, c: Config)
    requires GlobalDir(app) in fs.dirs && ConfigPath(app) in fs.files && ConfigPath(app) !in fs.dirs
    requires !host.isEmpty(fs.files[ConfigPath(app)]) && host.parse(fs.files[ConfigPath(app)]) == Object(c)
    requires app.name in c && c[app.name].lastUpgrade != Some(host.today)
    ensures var stamped := Stamp(c, app.name, host.today);
      && ThrottleGate(app, host, fs, false) == Proceed(fs.(files := fs.files[ConfigPath(app) := host.stringify(stamped)]))
      && CheckAndAutoUpgrade(app, host, world, fs, false)
         == AutoUpgrade(app, host, world, fs.(files := fs.files[ConfigPath(app) := host.stringify(stamped)]))
  {
    ReloadIsStable(app, host, fs);
    assert ConfigPath(app)[..|ConfigPath(app)| - 1] == GlobalDir(app);
  }

  /** With a readable global config, the throttle crashes (at `JSON.parse`, or
      at the lookup of this tool's record) exactly when the text is non-empty
      and either malformed or without a record for this tool; nothing is run
      or written then. */
  lemma GateCrashes(app: App, host: Host, fs: FileSystem)
    requires GlobalDir(app) in fs.dirs && ConfigPath(app) in fs.files && ConfigPath(app) !in fs.dirs
    ensures var text := fs.files[ConfigPath(app)];
      var g := ThrottleGate(app, host, fs, false);
      (g.Stop? && g.run.outcome == Crash) <==>
        !host.isEmpty(text) && (host.parse(text) == Malformed || (host.parse(text).Object? && app.name !in host.parse(text).config))
    ensures var g := ThrottleGate(app, host, fs, false);
      g.Stop? ==> g.run.fs == fs
  {
    ReloadIsStable(app, host, fs);
    assert ConfigPath(app)[..|ConfigPath(app)| - 1] == GlobalDir(app);
  }

  /** A stopped call is a no-op: no command, no change, no exit. */
  lemma QuietRunIsNoOp(app: App, host: Host, world: World, fs: FileSystem)
    requires Quiet(app, host, fs)
    ensures var r := CheckAndAutoUpgrade(app, host, world, fs, false);
      r.fs == fs && r.trace == [] && r.outcome in {Return(Silent), Crash}
  {
  }

  /** Whatever a non-forced call does, it leaves the file system in a state
      where the next non-forced call on the same day is stopped. */
  lemma {:induction false} RunLeavesQuiet(app: App, host: Host, world: World, fs: FileSystem)
    requires RoundTrips(host)
    requires app.name != "config.json"
    ensures Quiet(app, host, CheckAndAutoUpgrade(app, host, world, fs, false).fs)
  {
    var first := LoadConfig(app, host, fs, None);
    ReloadIsStable(app, host, fs);
    var g := ThrottleGate(app, host, fs, false);
    match g
    case Stop(r) =>
      assert r.fs == first.fs;
      ReloadIsStable(app, host, first.fs);
    case Proceed(fs1) =>
      var c2 := first.result.config;
      var stamped := Stamp(c2, app.name, host.today);
      assert fs1.files[ConfigPath(app)] == host.stringify(stamped);
      assert ConfigPath(app) !in fs1.dirs;
      UpgradeKeepsConfig(app, host, world, fs1, CloneDir(app));
      var r := AutoUpgrade(app, host, world, fs1);
      assert r.fs.files[ConfigPath(app)] == host.stringify(stamped);
      assert host.parse(host.stringify(stamped)) == Object(stamped) && !host.isEmpty(host.stringify(stamped));
      assert LoadConfig(app, host, r.fs, None) == Loaded(r.fs, Doc(stamped));
  }

  datatype History = History(fs: FileSystem, trace: seq<Command>, outcomes: seq<Outcome>)

  /** Non-forced calls made one after the other, each facing its own remote
      state, each starting from the file system the previous one left. */
  function SameDayRuns(app: App, host: Host, worlds: seq<World>, fs: FileSystem): (h: History)
    ensures |h.outcomes| == |worlds|
    decreases |worlds|
  {
    if worlds == [] then History(fs, [], [])
    else
      var r := CheckAndAutoUpgrade(app, host, worlds[0], fs, false);
      var rest := SameDayRuns(app, host, worlds[1..], r.fs);
      History(rest.fs, r.trace + rest.trace, [r.outcome] + rest.outcomes)
  }

  /** From a stopped state, any number of further calls run no command,
      change nothing and never exit the process. */
  lemma {:induction false} QuietStaysQuiet(app: App, host: Host, worlds: seq<World>, fs: FileSystem)
    requires Quiet(app, host, fs)
    ensures var h := SameDayRuns(app, host, worlds, fs);
      h.fs == fs && h.trace == [] && forall i :: 0 <= i < |h.outcomes| ==> h.outcomes[i] in {Return(Silent), Crash}
    decreases |worlds|
  {
    if worlds != [] {
      QuietRunIsNoOp(app, host, worlds[0], fs);
      QuietStaysQuiet(app, host, worlds[1..], fs);
    }
  }

  /** Idempotent throttle: after one non-forced call, every further
      non-forced call on the same day syncs nothing, rebuilds nothing and
      leaves the file system as the first call left it. */
  lemma SameDayRerunsDoNothing(app: App, host: Host, first: World, worlds: seq<World>, fs: FileSystem)
    requires RoundTrips(host)
    requires app.name != "config.json"
    ensures var r := CheckAndAutoUpgrade(app, host, first, fs, false);
      var h := SameDayRuns(app, host, worlds, r.fs);
      && h.fs == r.fs && h.trace == []
      && forall i :: 0 <= i < |h.outcomes| ==> h.outcomes[i] in {Return(Silent), Crash}
  {
    RunLeavesQuiet(app, host, first, fs);
    QuietStaysQuiet(app, host, worlds, CheckAndAutoUpgrade(app, host, first, fs, false).fs);
  }

}

=== FILE: upgrade.dfy ===
/** The self-update controller: the daily throttle gate of
    `checkAndAutoUpgrade` and the decision sequence of `autoUpgrade`
    (git present, sync, descriptor present, descriptor loaded, versions
    compared, rebuild). External commands are values of `Command`; what they
    do outside the repository working copy is not modelled, and their exit
    codes come from the `World`. */
module Controller {

  import opened Base
  import opened Files
  import opened ConfigStore

  /** The shell commands the controller runs, each with the directory it runs in. */
  datatype Command =
    | Reset(dir: Path)              // `git clean -df; git reset --hard HEAD`
    | Pull(dir: Path)               // `git pull`
    | Clone(url: string, into: Path) // `git clone <url> <into>`
    | Rebuild(dir: Path)            // `npm install; npm run build; npm link`

  /** The outside world of one upgrade attempt: whether `git` is on the PATH,
      the exit code every command resolves with, and the package descriptor
      the remote repository currently holds (None: it holds none). */
  datatype World = World(gitPresent: bool, exitCode: Command -> int, remotePackage: Option<string>)

  /** What the controller prints last before it returns or exits. */
  datatype Notice =
    | Silent                   // returns without a message of its own
    | GitMissing               // "please install git"
    | UpdateFailed             // ERROR_MSG
    | UpToDate                 // "already the latest version"
    | Upgraded(version: string) // "updated, latest version: <v>"
    | RebuildFailed(code: int)  // ERROR_MSG + "(code <n>)"

  /** How an invocation ends: `shelljs.exit(code)`, a plain return to the
      caller, or an uncaught exception. */
  datatype Outcome = Exit(code: int, notice: Notice) | Return(notice: Notice) | Crash

  /** The file system an invocation leaves behind, the commands it ran in order, and how it ended. */
  datatype Run = Run(fs: FileSystem, trace: seq<Command>, outcome: Outcome)

  /** The directory `git clone ... repository` writes into: `repository` below
      the global directory, the working directory at that point. */
  function CloneDir(app: App): Path { GlobalDir(app) + ["repository"] }

  /** The descriptor of a working copy at `dir` after git has brought it to
      the remote's state: present with the remote's text, or absent. */
  function Checkout(fs: FileSystem, dir: Path, package: Option<string>): (r: FileSystem)
    ensures r.dirs == fs.dirs
    ensures forall q :: q != dir + ["package.json"] ==> (q in r.files <==> q in fs.files)
    ensures forall q :: q != dir + ["package.json"] && q in fs.files ==> r.files[q] == fs.files[q]
    ensures package.Some? ==> dir + ["package.json"] in r.files && r.files[dir + ["package.json"]] == package.value
    ensures package.None? ==> dir + ["package.json"] !in r.files
  {
    var p := dir + ["package.json"];
    if package.Some? then fs.(files := fs.files[p := package.value])
    else fs.(files := fs.files - {p})
  }

  datatype Synced = Synced(fs: FileSystem, trace: seq<Command>, ok: bool)

  /** The sync step. An existing working copy is reset and pulled, and both
      exit codes are ignored; otherwise the remote is cloned into `cloneInto`,
      and a non-zero clone code stops the attempt. When the working copy's
      path is a regular file, `shelljs.cd` into it fails without stopping
      the run and git has nothing to update, so the file system is kept. */
  function Sync(app: App, world: World, fs: FileSystem, cloneInto: Path): (s: Synced)
    ensures Exists(fs, RepoDir(app)) ==> s.ok && s.trace == [Reset(RepoDir(app)), Pull(RepoDir(app))]
    ensures !Exists(fs, RepoDir(app)) ==> s.trace == [Clone(app.url, cloneInto)]
    ensures !Exists(fs, RepoDir(app)) ==> (s.ok <==> world.exitCode(Clone(app.url, cloneInto)) == 0)
    ensures !s.ok ==> s.fs == fs
    ensures Exists(fs, RepoDir(app)) && RepoDir(app) !in fs.dirs ==> s.fs == fs
    // a successful sync of a real working copy, or of a fresh clone, leaves the
    // remote's descriptor in it and every other file as it was
    ensures var d := if Exists(fs, RepoDir(app)) then RepoDir(app) else cloneInto;
      var p := d + ["package.json"];
      s.ok && (RepoDir(app) in fs.dirs || !Exists(fs, RepoDir(app))) ==>
        && s.fs.dirs == (if Exists(fs, RepoDir(app)) then fs.dirs else fs.dirs + {cloneInto})
        && (world.remotePackage.Some? ==> p in s.fs.files && s.fs.files[p] == world.remotePackage.value)
        && (world.remotePackage.None? ==> p !in s.fs.files)
        && (forall q :: q != p ==> (q in s.fs.files <==> q in fs.files))
        && (forall q :: q != p && q in fs.files ==> s.fs.files[q] == fs.files[q])
  {
    if Exists(fs, RepoDir(app)) then
      var synced := if RepoDir(app) in fs.dirs then Checkout(fs, RepoDir(app), world.remotePackage) else fs;
      Synced(synced, [Reset(RepoDir(app)), Pull(RepoDir(app))], true)
    else
      var clone := Clone(app.url, cloneInto);
      if world.exitCode(clone) != 0 then Synced(fs, [clone], false)
      else Synced(Checkout(fs.(dirs := fs.dirs + {cloneInto}), cloneInto, world.remotePackage), [clone], true)
  }

  /** `autoUpgrade`, with the clone target as a parameter. The source's
      `autoUpgrade` is `AutoUpgrade`; `AutoUpgradeIntended` clones where the
      rest of the function looks. */
  function Upgrade(app: App, host: Host, world: World, fs: FileSystem, cloneInto: Path): (r: Run)
    ensures r.outcome == Exit(1, GitMissing) <==> !world.gitPresent
    ensures !world.gitPresent ==> r.fs == fs && r.trace == []
    ensures r.outcome.Exit? ==> r.outcome.code == 0 || r.outcome.code == 1
    ensures (r.outcome.Exit? && r.outcome.code == 0) <==> Rebuild(RepoDir(app)) in r.trace
    ensures r.outcome.Exit? && r.outcome.notice.Upgraded? ==> r.outcome.notice.version != app.version
    ensures r.outcome == Return(Silent) ==> !Exists(r.fs, RepoDir(app))
  {
    if !world.gitPresent then Run(fs, [], Exit(1, GitMissing))
    else
      var s := Sync(app, world, fs, cloneInto);
      if !s.ok || !Exists(s.fs, RepoPackage(app)) then Run(s.fs, s.trace, Return(UpdateFailed))
      else
        var remote := LoadConfig(app, host, s.fs, Some(RepoPackage(app)));
        match remote.result
        case Thrown => Run(remote.fs, s.trace, Crash)
        case Null => Run(RemoveTree(remote.fs, RepoDir(app)), s.trace, Return(Silent))
        case Doc(c) =>
          if app.name !in c then Run(remote.fs, s.trace, Crash)
          else if c[app.name].version == app.version then Run(remote.fs, s.trace, Return(UpToDate))
          else
            var rebuild := Rebuild(RepoDir(app));
            var code := world.exitCode(rebuild);
            Run(remote.fs, s.trace + [rebuild],
                Exit(0, if code == 0 then Upgraded(c[app.name].version) else RebuildFailed(code)))
  }

  /** `autoUpgrade` as written: the clone goes to `~/.<name>/repository`. */
  function AutoUpgrade(app: App, host: Host, world: World, fs: FileSystem): (r: Run)
    ensures world.gitPresent && !Exists(fs, RepoDir(app)) ==>
      |r.trace| > 0 && r.trace[0] == Clone(app.url, GlobalDir(app) + ["repository"])
  {
    Upgrade(app, host, world, fs, CloneDir(app))
  }

  /** `autoUpgrade` with the clone going to `~/.<name>/<name>`, the directory
      every later step reads. */
  function AutoUpgradeIntended(app: App, host: Host, world: World, fs: FileSystem): (r: Run)
    ensures world.gitPresent && !Exists(fs, RepoDir(app)) ==>
      |r.trace| > 0 && r.trace[0] == Clone(app.url, RepoDir(app))
  {
    Upgrade(app, host, world, fs, RepoDir(app))
  }

  datatype GateResult = Stop(run: Run) | Proceed(fs: FileSystem)

  /** The part of `checkAndAutoUpgrade` before `autoUpgrade`. A forced call
      passes straight through. Otherwise the global config is loaded; `null`
      or a record stamped today stops the call; else the config is loaded
      again, stamped with today's date and saved, and the call proceeds. */
  function ThrottleGate(app: App, host: Host, fs: FileSystem, force: bool): (g: GateResult)
    ensures force ==> g == Proceed(fs)
    ensures g.Stop? ==> g.run.trace == [] && g.run.outcome in {Return(Silent), Crash}
    ensures !force && g.Proceed? ==> ConfigPath(app) in g.fs.files && GlobalDir(app) in g.fs.dirs
    ensures !force && g.Proceed? ==> forall q :: q != ConfigPath(app) ==> (q in g.fs.files <==> q in fs.files)
    ensures !force && g.Proceed? ==> forall q :: q != ConfigPath(app) && q in fs.files ==> g.fs.files[q] == fs.files[q]
  {
    if force then Proceed(fs)
    else
      var first := LoadConfig(app, host, fs, None);
      match first.result
      case Thrown => Stop(Run(first.fs, [], Crash))
      case Null => Stop(Run(first.fs, [], Return(Silent)))
      case Doc(c) =>
        if app.name !in c then Stop(Run(first.fs, [], Crash))
        else if c[app.name].lastUpgrade == Some(host.today) then Stop(Run(first.fs, [], Return(Silent)))
        else
          var second := LoadConfig(app, host, first.fs, None);
          match second.result
          case Thrown => Stop(Run(second.fs, [], Crash))
          case Null => Stop(Run(second.fs, [], Crash))
          case Doc(c2) =>
            if app.name !in c2 then Stop(Run(second.fs, [], Crash))
            else match SaveConfig(app, host, second.fs, Stamp(c2, app.name, host.today), None)
              case None => Stop(Run(second.fs, [], Crash))
              case Some(stamped) => Proceed(stamped)
  }

  /** `checkAndAutoUpgrade(force)`: the throttle gate, then `autoUpgrade`. */
  function CheckAndAutoUpgrade(app: App, host: Host, world: World, fs: FileSystem, force: bool): (r: Run)
    ensures var g := ThrottleGate(app, host, fs, force);
      && (g.Stop? ==> r == g.run)
      && (g.Proceed? ==> r == AutoUpgrade(app, host, world, g.fs))
    ensures force ==> r == AutoUpgrade(app, host, world, fs)
    ensures r.outcome.Exit? ==> r.outcome.code == 0 || r.outcome.code == 1
    ensures (r.outcome.Exit? && r.outcome.code == 0) <==> Rebuild(RepoDir(app)) in r.trace
  {
    match ThrottleGate(app, host, fs, force)
    case Stop(r) => r
    case Proceed(fs1) => AutoUpgrade(app, host, world, fs1)
  }

}
